=== FILE: README.md ===
# Two-player Flappy Bird: a frame-stepped model of the gameplay core

This project models the simulation state of a two-player Flappy Bird clone
and proves properties of it in Dafny. Two birds fall under gravity and flap
upwards. Pipes spawn at the right edge of the window on a counter and scroll
left. A bird that hits the oldest pipe or the ground is marked collided. Both
players score when they leave the oldest pipe behind.

Everything is immutable data and pure per-frame functions. Coordinates are
`real`, an exact stand-in for the game's `float`.

- `globals.dfy` (module `Globals`): the window width 600, the sprite sizes
  (`Dims`), and rectangle overlap.
- `birds.dfy` (module `Birds`): a bird object. It has velocity, a wing
  counter and toggle, a fly flag, and one sprite per player. Player one's bird
  is driven through sprite 1 and player two's through sprite 2, as in the
  game. The module covers update (the freeze line at top 548, gravity 14 per
  second, the clamp to the top of the screen, the wing texture flip every
  fifth active call), flap (velocity `-300 * dt`), reset to (100, 50) or
  (100, 150), the fly switch, and the right edge.
- `pipes.dfy` (module `Pipes`): a pipe pair built at x = 600 for a drawn gap
  value in [250, 550]. The `up` segment is the lower one, with its top at the
  drawn value. The `down` segment is the upper one, with its top 170 plus the
  `up` segment's height above that. The module covers movement at 400 pixels
  per second and the right edge (read from the `down` segment).
- `pipe_erase.dfy` (module `PipeErase`): the forward erase-while-iterating
  pass over the pipe list, modelled with an explicit index and including the
  pipe it passes over after each erase. The module also gives an
  independent per-pipe description (`Fates`/`Apply`) and proves that the
  two agree.
- `game.dfy` (module `Game`): the session. It covers the spawn counter (a pipe
  when the counter exceeds 70, reset to 71 on restart), the processing frame,
  the two collision checks against the oldest pipe, the score check with its
  single shared monitoring flag, restart, key presses as abstract events
  (start, flap 1, flap 2, restart) and one game-loop frame.
- `game_properties.dfy` (module `GameProperties`): the spawn schedule, the
  session invariant kept by every frame, score monotonicity, and two
  properties of the collision and erase order.

Inputs from outside the core are parameters:
- the frame time `dt`;
- the random gap draw `gap`, taken from the inclusive range [250, 550] of
  `Game.h:41`;
- the sprite sizes `Dims`, each a texture size times the scaling factor 1.5.

Rectangle intersection is assumed to be strict overlap of the two boxes,
which is what the graphics library's test does for boxes of positive size.
All sprite sizes are assumed positive.

## Reading of the garbled lines of Game.cpp

`Game.cpp` is not valid C++ as written: it has statements at file scope
(lines 137-138) and undeclared names (`lenter_pressed`, `birdICollided`). The
model follows the evident intent of the gameplay lines:
- `Game.cpp:137-138` lie outside any function. The two bird updates are
  placed at the end of `doProcessing`, after the `enter_pressed` block and
  after the collision and score checks. So birds move on the positions they
  had when the checks ran.
- `Game.cpp:183-186` sit textually inside the event-polling loop. They are
  modelled as one processing frame per game-loop frame, after that frame's
  key presses.
- `Game.cpp:174-181`: `|` is read as `!`, and the stray
  `return raster(name);` is dropped. The restart block is read as its own
  key handler, guarded by "some bird has stopped running", not nested inside
  the "some bird is running" guard of the play keys.
- `Game.cpp:160-172`: `lenter_pressed` is read as `!enter_pressed`, and
  `bindshouldfly` and `bindflap` as `birdshouldfly` and `birdflap`.
- `Game.cpp:11`: `birdICollided` is read as `bird1Collided`.

## Notes on the game's behaviour

- The ground check (top >= 540) only runs when there is at least one pipe.
  With no pipes, a bird on the ground is never marked collided.
- The gap draw is inclusive of 550.
- The spawn counter is compared before it is incremented. A restart sets it
  to 71, so the first processing frame spawns and then every 71st frame does.
- The second player's right edge is read through sprite 1 of that player's
  bird object, because `getRightBound` always reads sprite 1. Sprite 1 stays
  at x = 100, so the x value is still right, but the width used is sprite 1's.
- Both birds always sit at x = 100, and the score check compares only x
  positions. So the two "passed" conditions are the same, both scores always
  rise together, and `score1 == score2` is an invariant
  (`GameProperties.TickKeepsInv`). A collided bird keeps scoring if the round
  is resumed with Enter while the other bird still runs.
- `restartGame` does not clear `start_monitoring` or the wing animation
  (`Game.Restart` states this).

## Model

| member | source | states |
|---|---|---|
| Birds.NewBird | Bird.cpp:4-22 | a constructed bird: both sprites at their start points with texture 0, counter and toggle 0, velocity 0, not flying; it satisfies the bird invariant |
| Birds.ResetPosition | Bird.cpp:69-78 | the reset sprite goes to (100, 50) for player one or (100, 150) for player two and the velocity becomes 0; the fly flag, the animation, the shown texture and the other sprite are unchanged; the invariant is kept |
| Birds.Flutter | Bird.cpp:28-35 | from a counter in [0, 5] the counter lands in [1, 5]; the toggle stays 0 or 1 and flips exactly when the counter had reached 5 |
| Birds.Update | Bird.cpp:23-59 | a no-op unless top < 548 and the fly flag is set; otherwise the velocity gains exactly 14 * dt, the sprite moves by the new velocity or snaps to (100, 0) when it would go above the screen (so its top is >= 0), the wing texture becomes the old toggle when the counter was 5, and the fly flag and the other sprite are unchanged; the invariant (x = 100, top >= 0, counters in range) is kept |
| Birds.Flap | Bird.cpp:60-63 | the velocity becomes exactly -300 * dt and nothing else changes |
| Birds.FlapForgetsVelocity | Bird.cpp:60-63 | two birds that differ only in velocity are equal after the same flap |
| Birds.ShouldFly | Bird.cpp:79-82 | only the fly flag changes |
| Birds.RightBound | Bird.cpp:64-68 | for any consistent bird of either player the right edge is 100 plus sprite 1's width |
| Birds.VelocityNonDecreasing | Bird.cpp:36-37 | for dt >= 0, any number of updates without a flap never lowers the velocity |
| Birds.UpdateNKeepsInv | Bird.cpp:23-59 | any number of updates keeps both sprites at x = 100 with top >= 0 and never changes the fly flag |
| Birds.FlutterFromZero | Bird.cpp:28-35 | from counter 0, after k >= 1 active updates the counter is ((k - 1) mod 5) + 1 and the toggle has flipped floor((k - 1) / 5) times |
| Pipes.New | Pipe.cpp:27-43 | both segments at x = 600; the `up` segment's top is the drawn gap value; the `down` segment's top lies 170 plus the `up` segment's height above it; the pipe is placed when the draw is in [250, 550] |
| Pipes.Update | Pipe.cpp:52-57 | both segments move left by the same 400 * dt and keep their tops |
| Pipes.RightBound | Pipe.cpp:78-82 | the right edge of the `down` segment's bounds; for a well-formed pipe also the `up` segment's x plus the `down` segment's width |
| Pipes.UpdateStep | Pipe.cpp:78-82 | the right edge drops by exactly 400 * dt per update (never rises for dt >= 0), and the shared x and the vertical offset are kept |
| Pipes.UpdateNShift | Pipe.cpp:52-57 | after n updates both segments have moved by n * 400 * dt with unchanged tops, so they still share x and keep their offset |
| Pipes.RightBoundNonIncreasing | Pipe.cpp:78-82 | for dt >= 0 the right edge never rises over any number of updates |
| PipeErase.EraseLoop | Game.cpp:122-129 | the pass never lengthens the list and never touches pipes before the current index |
| PipeErase.FatesPointwise | Game.cpp:122-129 | a pipe is passed over exactly when the pipe before it was erased; a visited pipe is erased exactly when its right edge is < 0 after its own update |
| PipeErase.EraseLoopFromPrefix | Game.cpp:122-129 | the pass from index i keeps the first i pipes and treats the rest by their fates |
| PipeErase.EraseLoopMatchesFates | Game.cpp:122-129 | the indexed pass equals the fate-wise description: survivors in their original order, kept pipes updated, passed-over pipes unchanged, erased pipes gone |
| PipeErase.SkipAfterErase | Game.cpp:125-128 | after an erase at index i, the pipe that slides into slot i stays there unmoved, even if it is itself off screen |
| PipeErase.NoneOffscreenUpdatesAll | Game.cpp:122-129 | when no pipe leaves the screen, every pipe is updated once and none is erased or passed over |
| PipeErase.EraseLoopKeepsPlaced | Game.cpp:122-129 | every surviving pipe is still well formed with its gap in range |
| Game.NewSession | Game.cpp:6-20 | the constructed session: no pipes, counter 71, zero scores, both birds running and uncollided, round not started, monitoring off, birds not flying; it satisfies the session invariant |
| Game.Spawn | Game.cpp:116-121 | when the counter exceeds 70, exactly one new pipe is appended at the end and the counter ends at 1; otherwise the pipes are unchanged and the counter rises by 1; nothing else changes |
| Game.Hit | Game.cpp:254-258 | a bird at or below the ground line always hits; a consistent bird whose box overlaps the `down` or the `up` segment's box on both axes hits; a bird above the ground that lies vertically between the two segments does not hit; a bird above the ground hits only a segment whose horizontal span overlaps [100, 100 + width) |
| Game.CheckCollision | Game.cpp:250-282 | with no pipes nothing changes, even for a bird on the ground; a hit on the oldest pipe's segments or top >= 540 clears enter_pressed and that bird's run flag and sets its collided flag, leaving the other bird's flags and all else unchanged |
| Game.CheckCollisions | Game.cpp:130-131 | after both checks each bird is collided exactly when it already was or hits the oldest pipe or the ground now, its run flag falls exactly then, and `enter_pressed` clears when either bird hits; pipes, birds and scores are untouched |
| Game.InGap | Game.cpp:291-299 | for a consistent bird of either player: the oldest pipe's left edge is before x = 100 and its right edge after 100 plus sprite 1's width |
| Game.Passed | Game.cpp:306-307 | for a consistent bird of either player: the oldest pipe's right edge is before x = 100; a bird that has passed is not in the pipe's span |
| Game.CheckScore | Game.cpp:285-324 | with monitoring off, no score changes and monitoring turns on exactly when some bird is in the oldest pipe's span; with monitoring on, each score rises by exactly 1 when its bird has passed the oldest pipe's right edge and by 0 otherwise, and monitoring turns off exactly when some bird has passed; with no pipes nothing changes; with consistent birds both scores rise together; nothing else changes |
| Game.UpdateBirds | Game.cpp:137-138 | an active bird gains exactly 14 * dt of velocity, falls by its new velocity or snaps to top 0 when it would go above the screen, and takes one animation step; an inactive bird stays as it is; each bird's other sprite is untouched; consistent birds stay consistent; only the birds change |
| Game.DoProcessing | Game.cpp:111-138 | one processing frame advances the spawn counter by one step; the surviving pipes are the spawned list under the fate-wise description of the erase pass (at most one more pipe than before); each bird is updated exactly once, on the sprite the game uses for it, whatever the checks found; each score rises by at most 1; without `enter_pressed` the pipes do not change (the checks it runs are stated by `GameProperties.DoProcessingChecks`) |
| Game.Restart | Game.cpp:428-446 | pipes emptied, scores zeroed, counter 71, both birds running and uncollided, round not started, birds not flying and back at their start points with velocity 0; monitoring and wing animation left as they were |
| Game.HandleKey | Game.cpp:158-181 | R restarts once a bird has stopped and does nothing while both run; Enter before the round starts sets `enter_pressed` and enables both birds' flight, changing nothing else, and does nothing once the round is on; Space and Up flap bird one and bird two during the round and do nothing before it; no key but R does anything once both birds have stopped |
| Game.HandleKeys | Game.cpp:152-182 | a frame's key presses applied in order; no keys change nothing; without R they never touch the pipes, the spawn counter, the scores, monitoring or the run and collided flags |
| Game.Tick | Game.cpp:147-187 | when the round is off after the frame's keys, the frame is just those key presses; when it is on, the frame is one processing frame after the keys, so both birds are updated exactly once, each score rises by 0 or 1, the spawn counter advances one step, and a hit ends the round as `GameProperties.DoProcessingChecks` states; with no keys, a paused frame changes nothing and a running one adds at most one pipe |
| GameProperties.SpawnSchedule | Game.cpp:116-121 | from the restart value the counter after k frames is k mod 71 (71 for 0), so it stays in [1, 71], and frame k + 1 spawns exactly when 71 divides k |
| GameProperties.StartStateInv | Game.cpp:243-249 | the session the loop starts from satisfies the invariant, and its first processing frame spawns a pipe |
| GameProperties.RestartKeepsInv | Game.cpp:428-446 | a restart establishes the session invariant, and restarting twice equals restarting once |
| GameProperties.DoProcessingKeepsInv | Game.cpp:111-138 | a processing frame keeps the session invariant: counter in [1, 71], pipes well formed, birds at x = 100, equal non-negative scores, run flag the negation of collided |
| GameProperties.HandleKeyKeepsInv | Game.cpp:158-181 | a key press keeps the session invariant |
| GameProperties.HandleKeysKeepsInv | Game.cpp:152-182 | a frame's key presses keep the session invariant |
| GameProperties.TickKeepsInv | Game.cpp:147-187 | every game-loop frame keeps the session invariant, so the two scores are always equal |
| GameProperties.KeysKeepScores | Game.cpp:158-181 | key presses other than R leave both scores unchanged |
| GameProperties.TickScoresMonotone | Game.cpp:285-324 | a game-loop frame without R raises each score by 0 or 1 and never lowers it |
| GameProperties.BothCollideInOneFrame | Game.cpp:130-131 | when both birds hit in the same frame, both are marked collided and stopped |
| GameProperties.DoProcessingChecks | Game.cpp:111-132 | in a running frame, with the birds where they were before the frame and the oldest pipe left after spawn and erase: each bird is collided exactly when it was already or hits that pipe or the ground, its run flag falls exactly then, the round stops exactly when a bird hits; with monitoring on each score rises by exactly 1 when its bird has passed that pipe and monitoring turns off exactly when some bird has passed, and with monitoring off no score changes and monitoring turns on exactly when some bird is in its span |
| GameProperties.SkippedPipeIsChecked | Game.cpp:122-129 | when the oldest pipe is erased and a second exists, the second becomes the oldest, unmoved |
| GameProperties.SkippedPipeDecidesCollisions | Game.cpp:122-131 | in that frame each bird is marked collided exactly when it already was or it hits the unmoved second pipe alone |

## Left out

- Drawing, the menu and controls screens, and the win, lose and draw overlays are left out. They are output only (`Game.cpp:194-249`, `Game.cpp:327-407`).
- Score text and `toString` are left out. They are output only.
- Asset loading is left out: the texture and font loads in the `Game` and `Bird` constructors, and `Pipe::loadTextures`. This is file I/O. The sizes it fixes are the `Dims` parameter.
- `moveGround` is left out. The ground scrolls for show only and has no gameplay effect.
- Window creation, window close and the clock are left out. They are I/O. The frame time is the parameter `dt`.
- `main` (`Source.cpp`) is left out. It only creates the window and starts the loop.
- Random generation is left out. The draw is the parameter `gap`. The invariant lemmas assume it lies in [250, 550].
- Floating-point rounding is not modelled. `real` is exact.
- The graphics library's sprite bounds and intersection test are not shown in the source. They are modelled as position plus size and as strict box overlap.

=== FILE: birds.dfy ===
/** A bird: gravity-integrated vertical velocity, a two-frame wing animation
    and a "fly" flag. One bird object owns a sprite for each player; the game
    drives player one's bird through sprite 1 and player two's through
    sprite 2, and the other sprite of each object stays where its reset put it. */
module Birds {
  import opened Globals

  const Gravity: real := 14.0
  const FlapSpeed: real := 300.0
  /** A bird whose top has reached this line no longer moves. */
  const FreezeTop: real := 548.0
  /** Every move, clamp and reset keeps a bird at this x. */
  const StartLeft: real := 100.0
  /** The wing texture changes once every this many active updates. */
  const WingPeriod: int := 5

  datatype Player = One | Two

  /** Position of a sprite and the index (0 or 1) of the wing texture it shows. */
  datatype Sprite = Sprite(left: real, top: real, texture: int)

  datatype Bird = Bird(
    sprite1: Sprite,
    sprite2: Sprite,
    velocity: real,
    animation: int,
    animationSwitch: int,
    fly: bool)

  function Other(who: Player): Player
  {
    match who
    case One => Two
    case Two => One
  }

  function StartTop(who: Player): real
  {
    match who
    case One => 50.0
    case Two => 150.0
  }

  function SpriteOf(b: Bird, who: Player): Sprite
  {
    match who
    case One => b.sprite1
    case Two => b.sprite2
  }

  function WithSprite(b: Bird, who: Player, s: Sprite): Bird
  {
    match who
    case One => b.(sprite1 := s)
    case Two => b.(sprite2 := s)
  }

  /** Global bounds of the sprite `who` of a bird. */
  function Bounds(b: Bird, who: Player, d: Dims): Rect
  {
    var s := SpriteOf(b, who);
    match who
    case One => Rect(s.left, s.top, d.bird1Width, d.bird1Height)
    case Two => Rect(s.left, s.top, d.bird2Width, d.bird2Height)
  }

  predicate IsBit(x: int)
  {
    x == 0 || x == 1
  }

  /** What every reachable bird satisfies: both sprites at x = 100 and never
      above the top of the screen, the animation counter within [0, 5], and
      the toggle and both shown textures 0 or 1. */
  predicate Inv(b: Bird)
  {
    && b.sprite1.left == StartLeft && b.sprite2.left == StartLeft
    && b.sprite1.top >= 0.0 && b.sprite2.top >= 0.0
    && 0 <= b.animation <= WingPeriod
    && IsBit(b.animationSwitch)
    && IsBit(b.sprite1.texture) && IsBit(b.sprite2.texture)
  }

  /** Moves sprite `who` back to its start point and stops the bird; the fly
      flag, the animation and the other sprite are left alone. */
  function ResetPosition(b: Bird, who: Player): (r: Bird)
    ensures SpriteOf(r, who).left == StartLeft && SpriteOf(r, who).top == StartTop(who)
    ensures SpriteOf(r, who).texture == SpriteOf(b, who).texture
    ensures SpriteOf(r, Other(who)) == SpriteOf(b, Other(who))
    ensures r.velocity == 0.0
    ensures r.fly == b.fly && r.animation == b.animation && r.animationSwitch == b.animationSwitch
    ensures Inv(b) ==> Inv(r)
  {
    var s := SpriteOf(b, who);
    WithSprite(b, who, Sprite(StartLeft, StartTop(who), s.texture)).(velocity := 0.0)
  }

  /** A freshly constructed bird: both sprites reset, texture 0, animation
      counter and toggle 0, not flying. */
  function NewBird(): (b: Bird)
    ensures Inv(b)
    ensures !b.fly && b.velocity == 0.0 && b.animation == 0 && b.animationSwitch == 0
    ensures b.sprite1 == Sprite(StartLeft, StartTop(One), 0)
    ensures b.sprite2 == Sprite(StartLeft, StartTop(Two), 0)
  {
    // The sprites are at the origin before the resets, and the velocity is
    // only given a value by them.
    var blank := Bird(Sprite(0.0, 0.0, 0), Sprite(0.0, 0.0, 0), 0.0, 0, 0, false);
    ResetPosition(ResetPosition(blank, One), Two)
  }

  /** One step of the wing animation: (counter, toggle) after an active update. */
  function Flutter(animation: int, toggle: int): (r: (int, int))
    ensures 0 <= animation <= WingPeriod ==> 1 <= r.0 <= WingPeriod
    ensures IsBit(toggle) ==> IsBit(r.1)
    ensures r.1 != toggle <==> animation == WingPeriod
  {
    if animation == WingPeriod then
      (1, if toggle != 0 then 0 else 1)
    else
      (animation + 1, toggle)
  }

  /** `n` active updates of the wing animation. */
  function FlutterN(animation: int, toggle: int, n: nat): (int, int)
    decreases n
  {
    if n == 0 then (animation, toggle)
    else
      var next := Flutter(animation, toggle);
      FlutterN(next.0, next.1, n - 1)
  }

  /** Whether an update of sprite `who` acts at all. */
  predicate Active(b: Bird, who: Player)
  {
    SpriteOf(b, who).top < FreezeTop && b.fly
  }

  /** One frame of physics and animation for sprite `who`. */
  function Update(b: Bird, who: Player, dt: real): (r: Bird)
    ensures !Active(b, who) ==> r == b
    ensures Active(b, who) ==>
      && r.velocity == b.velocity + Gravity * dt
      && SpriteOf(r, who).top >= 0.0
      && (SpriteOf(b, who).top + r.velocity >= 0.0 ==>
            && SpriteOf(r, who).top == SpriteOf(b, who).top + r.velocity
            && SpriteOf(r, who).left == SpriteOf(b, who).left)
      && (SpriteOf(b, who).top + r.velocity < 0.0 ==>
            SpriteOf(r, who).top == 0.0 && SpriteOf(r, who).left == StartLeft)
      && (r.animation, r.animationSwitch) == Flutter(b.animation, b.animationSwitch)
      && SpriteOf(r, who).texture ==
           (if b.animation == WingPeriod then b.animationSwitch else SpriteOf(b, who).texture)
      && r.fly == b.fly
      && SpriteOf(r, Other(who)) == SpriteOf(b, Other(who))
    ensures Inv(b) ==> Inv(r)
  {
    var s := SpriteOf(b, who);
    if s.top < FreezeTop && b.fly then
      var next := Flutter(b.animation, b.animationSwitch);
      var texture := if b.animation == WingPeriod then b.animationSwitch else s.texture;
      var v := b.velocity + Gravity * dt;
      var moved := Sprite(s.left, s.top + v, texture);
      var placed := if moved.top < 0.0 then Sprite(StartLeft, 0.0, texture) else moved;
      WithSprite(b, who, placed).(velocity := v, animation := next.0, animationSwitch := next.1)
    else
      b
  }

  /** `n` frames of `Update` with no flap in between. */
  function UpdateN(b: Bird, who: Player, dt: real, n: nat): Bird
    decreases n
  {
    if n == 0 then b else UpdateN(Update(b, who, dt), who, dt, n - 1)
  }

  /** A flap replaces the velocity by an upward impulse. */
  function Flap(b: Bird, dt: real): (r: Bird)
    ensures r.velocity == -FlapSpeed * dt
    ensures r.(velocity := b.velocity) == b
    ensures Inv(b) ==> Inv(r)
  {
    b.(velocity := -FlapSpeed * dt)
  }

  /** Enables or disables physics; nothing else changes. */
  function ShouldFly(b: Bird, on: bool): (r: Bird)
    ensures r.fly == on
    ensures r.(fly := b.fly) == b
    ensures Inv(b) ==> Inv(r)
  {
    b.(fly := on)
  }

  /** Right edge of sprite 1, whichever player the bird belongs to. */
  function RightBound(b: Bird, d: Dims): (r: real)
    ensures Inv(b) ==> r == StartLeft + d.bird1Width
  {
    b.sprite1.left + d.bird1Width
  }

  /** For dt >= 0, the velocity never decreases over updates without a flap. */
  lemma {:induction false} VelocityNonDecreasing(b: Bird, who: Player, dt: real, n: nat)
    requires dt >= 0.0
    ensures UpdateN(b, who, dt, n).velocity >= b.velocity
    decreases n
  {
    if n > 0 {
      VelocityNonDecreasing(Update(b, who, dt), who, dt, n - 1);
    }
  }

  /** Updates without a flap keep a bird within its invariant and never touch
      its fly flag. */
  lemma {:induction false} UpdateNKeepsInv(b: Bird, who: Player, dt: real, n: nat)
    requires Inv(b)
    ensures Inv(UpdateN(b, who, dt, n))
    ensures UpdateN(b, who, dt, n).fly == b.fly
    decreases n
  {
    if n > 0 {
      UpdateNKeepsInv(Update(b, who, dt), who, dt, n - 1);
    }
  }

  /** From a fresh counter, the k-th active update (k >= 1) leaves the counter
      at ((k - 1) mod 5) + 1, and the toggle has flipped once for every five
      updates after the first: the wing texture changes every fifth call. */
  lemma {:induction false} FlutterFromZero(toggle: int, n: nat)
    requires IsBit(toggle)
    requires n >= 1
    ensures FlutterN(0, toggle, n).0 == (n - 1) % WingPeriod + 1
    ensures FlutterN(0, toggle, n).1 == (if ((n - 1) / WingPeriod) % 2 == 0 then toggle else 1 - toggle)
    decreases n
  {
    if n == 1 {
      assert FlutterN(0, toggle, 1) == FlutterN(1, toggle, 0);
    } else {
      FlutterFromZero(toggle, n - 1);
      FlutterNLast(0, toggle, n - 1);
      var prev := FlutterN(0, toggle, n - 1);
      assert FlutterN(0, toggle, n) == Flutter(prev.0, prev.1);
      var m := n - 2;
      assert prev.0 == m % 5 + 1;
      if m % 5 == 4 {
        assert (m + 1) % 5 == 0;
        assert (m + 1) / 5 == m / 5 + 1;
      } else {
        assert (m + 1) % 5 == m % 5 + 1;
        assert (m + 1) / 5 == m / 5;
      }
    }
  }

  /** `n + 1` steps are `n` steps followed by one more. */
  lemma {:induction false} FlutterNLast(animation: int, toggle: int, n: nat)
    ensures FlutterN(animation, toggle, n + 1) ==
      Flutter(FlutterN(animation, toggle, n).0, FlutterN(animation, toggle, n).1)
    decreases n
  {
    if n > 0 {
      var next := Flutter(animation, toggle);
      FlutterNLast(next.0, next.1, n - 1);
    }
  }

  /** Whatever velocity a bird had, the same flap leaves the same bird. */
  lemma FlapForgetsVelocity(b1: Bird, b2: Bird, dt: real)
    requires b1.(velocity := 0.0) == b2.(velocity := 0.0)
    ensures Flap(b1, dt) == Flap(b2, dt)
  {
  }
}

=== FILE: game.dfy ===
/** The game session: two birds, the list of pipes (oldest first), the pipe
    spawn counter, per-bird run and collision flags, the shared score
    monitoring flag and the two scores, stepped one frame at a time. */
module Game {
  import opened Globals
  import opened Birds
  import opened Pipes
  import opened PipeErase

  /** A new pipe is spawned once the counter exceeds this. */
  const SpawnTime: int := 70
  /** Counter value after a restart, so that the first frame spawns. */
  const RestartCounter: int := 71
  /** A bird whose top reaches this line has hit the ground. */
  const GroundTop: real := 540.0

  datatype Session = Session(
    pipes: seq<Pipe>,
    bird1: Bird,
    bird2: Bird,
    enterPressed: bool,
    runGame1: bool,
    runGame2: bool,
    startMonitoring: bool,
    bird1Collided: bool,
    bird2Collided: bool,
    pipeCounter: int,
    score1: int,
    score2: int)

  /** The keys the game reacts to: start, the two flap keys and restart. */
  datatype Key = Enter | Space | Up | R | OtherKey

  function BirdOf(s: Session, who: Player): Bird
  {
    match who
    case One => s.bird1
    case Two => s.bird2
  }

  function Running(s: Session, who: Player): bool
  {
    match who
    case One => s.runGame1
    case Two => s.runGame2
  }

  function Collided(s: Session, who: Player): bool
  {
    match who
    case One => s.bird1Collided
    case Two => s.bird2Collided
  }

  /** Bounds of the sprite the game uses for player `who`: sprite 1 of the
      first bird, sprite 2 of the second. */
  function BirdRect(s: Session, who: Player, d: Dims): Rect
  {
    Birds.Bounds(BirdOf(s, who), who, d)
  }

  /** What every reachable session satisfies. */
  predicate Inv(s: Session, d: Dims)
  {
    && Birds.Inv(s.bird1) && Birds.Inv(s.bird2)
    && 1 <= s.pipeCounter <= RestartCounter
    && (forall j :: 0 <= j < |s.pipes| ==> Placed(s.pipes[j], d))
    && 0 <= s.score1 == s.score2
    && (s.runGame1 <==> !s.bird1Collided)
    && (s.runGame2 <==> !s.bird2Collided)
  }

  /** The session as constructed, before the first restart. */
  function NewSession(): (s: Session)
    ensures s.pipes == [] && s.pipeCounter == RestartCounter
    ensures s.score1 == 0 && s.score2 == 0
    ensures !s.enterPressed && !s.startMonitoring
    ensures s.runGame1 && s.runGame2 && !s.bird1Collided && !s.bird2Collided
    ensures !s.bird1.fly && !s.bird2.fly
    ensures forall d :: Inv(s, d)
  {
    Session([], NewBird(), NewBird(), false, true, true, false, false, false,
            RestartCounter, 0, 0)
  }

  /** The counter after one processing frame. */
  function NextCounter(c: int): int
  {
    (if c > SpawnTime then 0 else c) + 1
  }

  /** The counter after `k` processing frames. */
  function CounterAfter(c: int, k: nat): int
    decreases k
  {
    if k == 0 then c else CounterAfter(NextCounter(c), k - 1)
  }

  /** Spawning: when the counter exceeds the spawn time, exactly one new pipe
      is appended at the end and the counter restarts; the counter is then
      incremented. */
  function Spawn(s: Session, gap: int, d: Dims): (r: Session)
    ensures s.pipeCounter > SpawnTime ==> r.pipes == s.pipes + [Pipes.New(gap, d)]
    ensures s.pipeCounter <= SpawnTime ==> r.pipes == s.pipes
    ensures r.pipeCounter == NextCounter(s.pipeCounter)
    ensures s.pipeCounter > SpawnTime ==> r.pipeCounter == 1
    ensures r.(pipes := s.pipes, pipeCounter := s.pipeCounter) == s
  {
    var spawned := if s.pipeCounter > SpawnTime
      then s.(pipes := s.pipes + [Pipes.New(gap, d)], pipeCounter := 0)
      else s;
    spawned.(pipeCounter := spawned.pipeCounter + 1)
  }

  /** Whether bird `who` hits the oldest pipe or the ground. A bird whose
      top has reached the ground line always hits; a bird whose box overlaps
      a segment's box on both axes hits; a bird above the ground and between
      the two segments vertically does not; and a bird above the ground can
      only hit a segment whose horizontal span overlaps its own
      [100, 100 + width). */
  function Hit(s: Session, who: Player, d: Dims): (r: bool)
    requires |s.pipes| > 0
    ensures SpriteOf(BirdOf(s, who), who).top >= GroundTop ==> r
    ensures r && SpriteOf(BirdOf(s, who), who).top < GroundTop && Birds.Inv(BirdOf(s, who)) ==>
      var p := s.pipes[0];
      var w := BirdRect(s, who, d).width;
      || (p.down.left < StartLeft + w && StartLeft < p.down.left + d.pipeDownWidth)
      || (p.up.left < StartLeft + w && StartLeft < p.up.left + d.pipeUpWidth)
    ensures Birds.Inv(BirdOf(s, who)) ==>
      var p := s.pipes[0];
      var b := BirdRect(s, who, d);
      && ((p.down.left < StartLeft + b.width && StartLeft < p.down.left + d.pipeDownWidth
           && p.down.top < b.top + b.height && b.top < p.down.top + d.pipeDownHeight) ==> r)
      && ((p.up.left < StartLeft + b.width && StartLeft < p.up.left + d.pipeUpWidth
           && p.up.top < b.top + b.height && b.top < p.up.top + d.pipeUpHeight) ==> r)
    ensures
      var p := s.pipes[0];
      var b := BirdRect(s, who, d);
      b.top < GroundTop && p.down.top + d.pipeDownHeight <= b.top && b.top + b.height <= p.up.top ==> !r
  {
    var b := BirdRect(s, who, d);
    || Intersects(DownRect(s.pipes[0], d), b)
    || Intersects(UpRect(s.pipes[0], d), b)
    || b.top >= GroundTop
  }

  /** The collision check for bird `who`, against the oldest pipe only, and
      only when there is a pipe at all. */
  function CheckCollision(s: Session, who: Player, d: Dims): (r: Session)
    ensures |s.pipes| == 0 ==> r == s
    ensures !(|s.pipes| > 0 && Hit(s, who, d)) ==> r == s
    ensures |s.pipes| > 0 && Hit(s, who, d) ==>
      !r.enterPressed && !Running(r, who) && Collided(r, who)
    ensures Running(r, Other(who)) == Running(s, Other(who))
    ensures Collided(r, Other(who)) == Collided(s, Other(who))
    ensures r.(enterPressed := s.enterPressed, runGame1 := s.runGame1, runGame2 := s.runGame2,
               bird1Collided := s.bird1Collided, bird2Collided := s.bird2Collided) == s
  {
    if |s.pipes| > 0 && Hit(s, who, d) then
      match who
      case One => s.(enterPressed := false, runGame1 := false, bird1Collided := true)
      case Two => s.(enterPressed := false, runGame2 := false, bird2Collided := true)
    else
      s
  }

  /** Both collision checks, one after the other. The first check touches
      neither pipes nor birds, so the second sees the same positions: each
      bird ends up collided exactly when it was already or it hits now, and
      the round stops when either bird hits. */
  function CheckCollisions(s: Session, d: Dims): (r: Session)
    ensures r.bird1Collided == (s.bird1Collided || (|s.pipes| > 0 && Hit(s, One, d)))
    ensures r.bird2Collided == (s.bird2Collided || (|s.pipes| > 0 && Hit(s, Two, d)))
    ensures r.runGame1 == (s.runGame1 && !(|s.pipes| > 0 && Hit(s, One, d)))
    ensures r.runGame2 == (s.runGame2 && !(|s.pipes| > 0 && Hit(s, Two, d)))
    ensures r.enterPressed == (s.enterPressed && !(|s.pipes| > 0 && (Hit(s, One, d) || Hit(s, Two, d))))
    ensures r.(enterPressed := s.enterPressed, runGame1 := s.runGame1, runGame2 := s.runGame2,
               bird1Collided := s.bird1Collided, bird2Collided := s.bird2Collided) == s
  {
    CheckCollision(CheckCollision(s, One, d), Two, d)
  }

  /** Bird `who` is inside the horizontal span of the oldest pipe. Player
      two's right edge is read through its bird's sprite 1, as the game does.
      For a consistent bird the answer depends on the pipe alone: the pipe's
      left edge is before x = 100 and its right edge after 100 plus sprite
      1's width, the same for both players. */
  function InGap(s: Session, who: Player, d: Dims): (r: bool)
    requires |s.pipes| > 0
    ensures Birds.Inv(BirdOf(s, who)) ==>
      (r <==> s.pipes[0].down.left < StartLeft && StartLeft + d.bird1Width < Pipes.RightBound(s.pipes[0], d))
  {
    var p := s.pipes[0];
    && SpriteOf(BirdOf(s, who), who).left > p.down.left
    && Birds.RightBound(BirdOf(s, who), d) < Pipes.RightBound(p, d)
  }

  /** Bird `who` is entirely to the right of the oldest pipe. For a
      consistent bird this is the pipe's right edge having passed x = 100,
      the same for both players, and a bird that has passed is no longer in
      the pipe's span when sprite 1 has non-negative width. */
  function Passed(s: Session, who: Player, d: Dims): (r: bool)
    requires |s.pipes| > 0
    ensures Birds.Inv(BirdOf(s, who)) ==> (r <==> Pipes.RightBound(s.pipes[0], d) < StartLeft)
    ensures Birds.Inv(BirdOf(s, who)) && d.bird1Width >= 0.0 && r ==> !InGap(s, who, d)
  {
    SpriteOf(BirdOf(s, who), who).left > Pipes.RightBound(s.pipes[0], d)
  }

  /** The score check, with one monitoring flag shared by both birds. */
  function CheckScore(s: Session, d: Dims): (r: Session)
    ensures s.score1 <= r.score1 <= s.score1 + 1
    ensures s.score2 <= r.score2 <= s.score2 + 1
    ensures (r.score1 > s.score1 || r.score2 > s.score2) <==> (s.startMonitoring && !r.startMonitoring)
    ensures !s.startMonitoring && r.startMonitoring ==>
      |s.pipes| > 0 && (InGap(s, One, d) || InGap(s, Two, d))
    ensures |s.pipes| > 0 && !s.startMonitoring ==>
      && r.score1 == s.score1 && r.score2 == s.score2
      && (r.startMonitoring <==> InGap(s, One, d) || InGap(s, Two, d))
    ensures |s.pipes| > 0 && s.startMonitoring ==>
      && r.score1 == s.score1 + (if Passed(s, One, d) then 1 else 0)
      && r.score2 == s.score2 + (if Passed(s, Two, d) then 1 else 0)
      && (r.startMonitoring <==> !Passed(s, One, d) && !Passed(s, Two, d))
    ensures |s.pipes| == 0 ==> r == s
    ensures Birds.Inv(s.bird1) && Birds.Inv(s.bird2) ==> r.score1 - s.score1 == r.score2 - s.score2
    ensures r.(score1 := s.score1, score2 := s.score2, startMonitoring := s.startMonitoring) == s
  {
    if |s.pipes| == 0 then s
    else if !s.startMonitoring then
      s.(startMonitoring := InGap(s, One, d) || InGap(s, Two, d))
    else
      var pass1 := Passed(s, One, d);
      var pass2 := Passed(s, Two, d);
      s.(score1 := if pass1 then s.score1 + 1 else s.score1,
         score2 := if pass2 then s.score2 + 1 else s.score2,
         startMonitoring := !(pass1 || pass2))
  }

  /** Both birds' physics, each on the sprite the game uses for it: a bird
      that is not active stays as it is, each bird's other sprite is left
      alone, consistent birds stay consistent, and nothing but the birds
      changes. */
  function UpdateBirds(s: Session, dt: real): (r: Session)
    ensures !Active(s.bird1, One) ==> r.bird1 == s.bird1
    ensures !Active(s.bird2, Two) ==> r.bird2 == s.bird2
    ensures r.bird1.sprite2 == s.bird1.sprite2 && r.bird2.sprite1 == s.bird2.sprite1
    ensures Birds.Inv(s.bird1) ==> Birds.Inv(r.bird1)
    ensures Birds.Inv(s.bird2) ==> Birds.Inv(r.bird2)
    ensures Active(s.bird1, One) ==>
      && r.bird1.velocity == s.bird1.velocity + Gravity * dt
      && (r.bird1.animation, r.bird1.animationSwitch) == Flutter(s.bird1.animation, s.bird1.animationSwitch)
    ensures Active(s.bird1, One) ==>
      r.bird1.sprite1.top ==
        (if s.bird1.sprite1.top + r.bird1.velocity < 0.0 then 0.0 else s.bird1.sprite1.top + r.bird1.velocity)
    ensures Active(s.bird2, Two) ==>
      r.bird2.sprite2.top ==
        (if s.bird2.sprite2.top + r.bird2.velocity < 0.0 then 0.0 else s.bird2.sprite2.top + r.bird2.velocity)
    ensures Active(s.bird2, Two) ==>
      && r.bird2.velocity == s.bird2.velocity + Gravity * dt
      && (r.bird2.animation, r.bird2.animationSwitch) == Flutter(s.bird2.animation, s.bird2.animationSwitch)
    ensures r.(bird1 := s.bird1, bird2 := s.bird2) == s
  {
    s.(bird1 := Birds.Update(s.bird1, One, dt), bird2 := Birds.Update(s.bird2, Two, dt))
  }

  /** One processing frame: spawn, move and erase pipes, check collisions and
      score, then move both birds. `gap` is the random draw, used only when a
      pipe is spawned. */
  function DoProcessing(s: Session, dt: real, gap: int, d: Dims): (r: Session)
    ensures s.enterPressed ==> r.pipeCounter == NextCounter(s.pipeCounter)
    ensures !s.enterPressed ==> r == UpdateBirds(s, dt)
    ensures s.score1 <= r.score1 <= s.score1 + 1
    ensures s.score2 <= r.score2 <= s.score2 + 1
    ensures r.bird1 == Birds.Update(s.bird1, One, dt) && r.bird2 == Birds.Update(s.bird2, Two, dt)
    ensures !s.enterPressed ==> r.pipes == s.pipes
    ensures s.enterPressed ==>
      var spawned := Spawn(s, gap, d).pipes;
      r.pipes == Apply(spawned, Fates(spawned, false, dt, d), dt)
    ensures |r.pipes| <= |s.pipes| + 1
  {
    if s.enterPressed then
      var spawned := Spawn(s, gap, d);
      EraseLoopMatchesFates(spawned.pipes, dt, d);
      var moved := spawned.(pipes := EraseLoop(spawned.pipes, 0, dt, d));
      UpdateBirds(CheckScore(CheckCollisions(moved, d), d), dt)
    else
      UpdateBirds(s, dt)
  }

  /** Restart: empty the pipes, zero the scores, rearm the counter, both birds
      running, uncollided, back at their start points and not flying. */
  function Restart(s: Session): (r: Session)
    ensures r.pipes == [] && r.score1 == 0 && r.score2 == 0
    ensures r.pipeCounter == RestartCounter
    ensures r.runGame1 && r.runGame2 && !r.bird1Collided && !r.bird2Collided
    ensures !r.enterPressed
    ensures !r.bird1.fly && !r.bird2.fly
    ensures r.bird1.sprite1 == Sprite(StartLeft, StartTop(One), s.bird1.sprite1.texture)
    ensures r.bird2.sprite2 == Sprite(StartLeft, StartTop(Two), s.bird2.sprite2.texture)
    ensures r.bird1.velocity == 0.0 && r.bird2.velocity == 0.0
    ensures r.startMonitoring == s.startMonitoring
    ensures r.bird1.animation == s.bird1.animation && r.bird1.animationSwitch == s.bird1.animationSwitch
    ensures r.bird2.animation == s.bird2.animation && r.bird2.animationSwitch == s.bird2.animationSwitch
  {
    var b1 := ShouldFly(ResetPosition(s.bird1, One), false);
    var b2 := ShouldFly(ResetPosition(s.bird2, Two), false);
    s.(bird1 := b1, bird2 := b2,
       bird1Collided := false, bird2Collided := false,
       runGame1 := true, runGame2 := true,
       enterPressed := false,
       pipeCounter := RestartCounter,
       pipes := [],
       score1 := 0, score2 := 0)
  }

  /** One key press. Enter starts the round (when a bird still runs and the
      round is not already started); Space and Up flap the first and second
      bird while the round is on; R restarts once some bird has collided. */
  function HandleKey(s: Session, k: Key, dt: real): (r: Session)
    ensures k == R && (!s.runGame1 || !s.runGame2) ==> r == Restart(s)
    ensures k == R && s.runGame1 && s.runGame2 ==> r == s
    ensures k == Enter && (s.runGame1 || s.runGame2) && !s.enterPressed ==>
      r == s.(enterPressed := true, bird1 := ShouldFly(s.bird1, true), bird2 := ShouldFly(s.bird2, true))
    ensures k == Enter && s.enterPressed ==> r == s
    ensures (k == Space || k == Up) && !s.enterPressed ==> r == s
    ensures k == Space && (s.runGame1 || s.runGame2) && s.enterPressed ==>
      r == s.(bird1 := Flap(s.bird1, dt))
    ensures k == Up && (s.runGame1 || s.runGame2) && s.enterPressed ==>
      r == s.(bird2 := Flap(s.bird2, dt))
    ensures k == OtherKey ==> r == s
    ensures k != R && !(s.runGame1 || s.runGame2) ==> r == s
  {
    var playing := s.runGame1 || s.runGame2;
    match k
    case Enter =>
      if playing && !s.enterPressed then
        s.(enterPressed := true, bird1 := ShouldFly(s.bird1, true), bird2 := ShouldFly(s.bird2, true))
      else s
    case Space => if playing && s.enterPressed then s.(bird1 := Flap(s.bird1, dt)) else s
    case Up => if playing && s.enterPressed then s.(bird2 := Flap(s.bird2, dt)) else s
    case R => if !s.runGame1 || !s.runGame2 then Restart(s) else s
    case OtherKey => s
  }

  /** The key presses of one frame, in order. Without a restart key they
      never touch the pipes, the spawn counter, the scores or the run and
      collided flags. */
  function HandleKeys(s: Session, keys: seq<Key>, dt: real): (r: Session)
    ensures keys == [] ==> r == s
    ensures R !in keys ==>
      && r.pipes == s.pipes && r.pipeCounter == s.pipeCounter
      && r.score1 == s.score1 && r.score2 == s.score2
      && r.runGame1 == s.runGame1 && r.runGame2 == s.runGame2
      && r.bird1Collided == s.bird1Collided && r.bird2Collided == s.bird2Collided
      && r.startMonitoring == s.startMonitoring
    decreases |keys|
  {
    if keys == [] then s else HandleKeys(HandleKey(s, keys[0], dt), keys[1..], dt)
  }

  /** One frame of the game loop: the frame's key presses, then one
      processing frame if the round is on. */
  function Tick(s: Session, keys: seq<Key>, dt: real, gap: int, d: Dims): (r: Session)
    ensures keys == [] && !s.enterPressed ==> r == s
    ensures keys == [] && s.enterPressed ==>
      r.pipeCounter == NextCounter(s.pipeCounter) && |r.pipes| <= |s.pipes| + 1
    ensures var t := HandleKeys(s, keys, dt); !t.enterPressed ==> r == t
    ensures var t := HandleKeys(s, keys, dt); t.enterPressed ==>
      && r.bird1 == Birds.Update(t.bird1, One, dt)
      && r.bird2 == Birds.Update(t.bird2, Two, dt)
      && t.score1 <= r.score1 <= t.score1 + 1
      && t.score2 <= r.score2 <= t.score2 + 1
      && r.pipeCounter == NextCounter(t.pipeCounter)
    ensures var t := HandleKeys(s, keys, dt); t.enterPressed ==> r == DoProcessing(t, dt, gap, d)
  {
    var t := HandleKeys(s, keys, dt);
    if t.enterPressed then DoProcessing(t, dt, gap, d) else t
  }
}

=== FILE: game_properties.dfy ===
/** Properties of the session across operations and frames: the spawn
    schedule, the session invariant, restart, collisions and scores. */
module GameProperties {
  import opened Globals
  import Birds
  import opened Pipes
  import opened PipeErase
  import opened Game

  /** `k + 1` frames are `k` frames followed by one more. */
  lemma {:induction false} CounterAfterLast(c: int, k: nat)
    ensures CounterAfter(c, k + 1) == NextCounter(CounterAfter(c, k))
    decreases k
  {
    if k > 0 {
      CounterAfterLast(NextCounter(c), k - 1);
    }
  }

  /** Starting from the restart value, the counter after `k` processing frames
      is k mod 71 (71 in place of 0), so it stays within [1, 71], and frame
      k + 1 spawns a pipe exactly when k is a multiple of 71: the first frame
      after a restart spawns, and then every 71st frame. */
  lemma {:induction false} SpawnSchedule(k: nat)
    ensures CounterAfter(RestartCounter, k) == (if k % 71 == 0 then 71 else k % 71)
    ensures 1 <= CounterAfter(RestartCounter, k) <= RestartCounter
    ensures CounterAfter(RestartCounter, k) > SpawnTime <==> k % 71 == 0
    decreases k
  {
    if k > 0 {
      SpawnSchedule(k - 1);
      CounterAfterLast(RestartCounter, k - 1);
      var m := k - 1;
      if m % 71 == 0 {
        assert k % 71 == 1;
      } else if m % 71 == 70 {
        assert k % 71 == 0;
      } else {
        assert k % 71 == m % 71 + 1;
      }
    }
  }

  /** The state the game loop starts from: the constructed session, restarted
      once by the game screen. Pipes spawn on its first processing frame. */
  lemma StartStateInv(d: Dims, gap: int)
    ensures Inv(Restart(NewSession()), d)
    ensures Spawn(Restart(NewSession()), gap, d).pipes == [Pipes.New(gap, d)]
  {
  }

  /** A restart of any session whose birds are consistent gives a session
      satisfying the invariant, and restarting twice is restarting once. */
  lemma RestartKeepsInv(s: Session, d: Dims)
    requires Birds.Inv(s.bird1) && Birds.Inv(s.bird2)
    ensures Inv(Restart(s), d)
    ensures Restart(Restart(s)) == Restart(s)
  {
  }

  /** One processing frame keeps the invariant, provided the random draw is in
      its range. */
  lemma DoProcessingKeepsInv(s: Session, dt: real, gap: int, d: Dims)
    requires Inv(s, d)
    requires GapLow <= gap <= GapHigh
    ensures Inv(DoProcessing(s, dt, gap, d), d)
  {
    if s.enterPressed {
      var spawned := Spawn(s, gap, d);
      assert forall j :: 0 <= j < |spawned.pipes| ==> Placed(spawned.pipes[j], d);
      EraseLoopKeepsPlaced(spawned.pipes, dt, d);
      var moved := spawned.(pipes := EraseLoop(spawned.pipes, 0, dt, d));
      assert Inv(moved, d);
      var checked := CheckCollisions(moved, d);
      assert Inv(checked, d);
      var scored := CheckScore(checked, d);
      assert Inv(scored, d);
    }
  }

  /** A running processing frame checks both birds against the oldest pipe
      left after the spawn and the erase pass, with the birds where they were
      before the frame: a hit marks that bird collided and stops the round,
      and the score check then runs on those same positions. */
  lemma DoProcessingChecks(s: Session, dt: real, gap: int, d: Dims)
    requires s.enterPressed
    ensures var r := DoProcessing(s, dt, gap, d);
      var c := Spawn(s, gap, d).(pipes := r.pipes);
      && r.bird1Collided == (s.bird1Collided || (|r.pipes| > 0 && Hit(c, Birds.One, d)))
      && r.bird2Collided == (s.bird2Collided || (|r.pipes| > 0 && Hit(c, Birds.Two, d)))
      && r.runGame1 == (s.runGame1 && !(|r.pipes| > 0 && Hit(c, Birds.One, d)))
      && r.runGame2 == (s.runGame2 && !(|r.pipes| > 0 && Hit(c, Birds.Two, d)))
      && r.enterPressed == !(|r.pipes| > 0 && (Hit(c, Birds.One, d) || Hit(c, Birds.Two, d)))
      && (|r.pipes| > 0 && s.startMonitoring ==>
            && r.score1 == s.score1 + (if Passed(c, Birds.One, d) then 1 else 0)
            && r.score2 == s.score2 + (if Passed(c, Birds.Two, d) then 1 else 0)
            && (r.startMonitoring <==> !Passed(c, Birds.One, d) && !Passed(c, Birds.Two, d)))
      && (|r.pipes| > 0 && !s.startMonitoring ==>
            && r.score1 == s.score1 && r.score2 == s.score2
            && (r.startMonitoring <==> InGap(c, Birds.One, d) || InGap(c, Birds.Two, d)))
  {
  }

  lemma HandleKeyKeepsInv(s: Session, k: Key, dt: real, d: Dims)
    requires Inv(s, d)
    ensures Inv(HandleKey(s, k, dt), d)
  {
    if k == R && (!s.runGame1 || !s.runGame2) {
      RestartKeepsInv(s, d);
    }
  }

  lemma {:induction false} HandleKeysKeepsInv(s: Session, keys: seq<Key>, dt: real, d: Dims)
    requires Inv(s, d)
    ensures Inv(HandleKeys(s, keys, dt), d)
    decreases |keys|
  {
    if keys != [] {
      HandleKeyKeepsInv(s, keys[0], dt, d);
      HandleKeysKeepsInv(HandleKey(s, keys[0], dt), keys[1..], dt, d);
    }
  }

  /** Every frame of the game loop keeps the invariant: in particular the
      counter stays within [1, 71], every pipe keeps its two segments aligned
      with their fixed vertical offset, both birds stay at x = 100, and the two
      scores are always equal. */
  lemma TickKeepsInv(s: Session, keys: seq<Key>, dt: real, gap: int, d: Dims)
    requires Inv(s, d)
    requires GapLow <= gap <= GapHigh
    ensures Inv(Tick(s, keys, dt, gap, d), d)
  {
    HandleKeysKeepsInv(s, keys, dt, d);
    var t := HandleKeys(s, keys, dt);
    if t.enterPressed {
      DoProcessingKeepsInv(t, dt, gap, d);
    }
  }

  /** Key presses other than restart leave both scores alone. */
  lemma KeysKeepScores(s: Session, keys: seq<Key>, dt: real)
    requires R !in keys
    ensures HandleKeys(s, keys, dt).score1 == s.score1
    ensures HandleKeys(s, keys, dt).score2 == s.score2
  {
  }

  /** Without a restart key, a frame raises each score by 0 or 1 and never
      lowers it. */
  lemma TickScoresMonotone(s: Session, keys: seq<Key>, dt: real, gap: int, d: Dims)
    requires R !in keys
    ensures s.score1 <= Tick(s, keys, dt, gap, d).score1 <= s.score1 + 1
    ensures s.score2 <= Tick(s, keys, dt, gap, d).score2 <= s.score2 + 1
  {
  }

  /** The second collision check runs even when the first one fired, on
      unchanged pipes and birds, so both birds can be marked in one frame. */
  lemma BothCollideInOneFrame(s: Session, d: Dims)
    requires |s.pipes| > 0 && Hit(s, Birds.One, d) && Hit(s, Birds.Two, d)
    ensures var r := CheckCollisions(s, d);
      r.bird1Collided && r.bird2Collided && !r.runGame1 && !r.runGame2 && !r.enterPressed
  {
  }

  /** When the oldest pipe leaves the screen in a frame where a second pipe
      exists, the second pipe becomes the oldest without having moved. */
  lemma SkippedPipeIsChecked(s: Session, dt: real, gap: int, d: Dims)
    requires s.enterPressed
    requires |s.pipes| >= 2
    requires Offscreen(Pipes.Update(s.pipes[0], dt), d)
    ensures var spawned := Spawn(s, gap, d);
      var erased := EraseLoop(spawned.pipes, 0, dt, d);
      |erased| > 0 && erased[0] == s.pipes[1]
  {
    var spawned := Spawn(s, gap, d);
    assert spawned.pipes[0] == s.pipes[0] && spawned.pipes[1] == s.pipes[1];
    SkipAfterErase(spawned.pipes, 0, dt, d);
  }

  /** In that frame the collision checks judge each bird against the
      unmoved second pipe alone. */
  lemma SkippedPipeDecidesCollisions(s: Session, dt: real, gap: int, d: Dims)
    requires s.enterPressed
    requires |s.pipes| >= 2
    requires Offscreen(Pipes.Update(s.pipes[0], dt), d)
    ensures DoProcessing(s, dt, gap, d).bird1Collided ==
      (s.bird1Collided || Hit(s.(pipes := [s.pipes[1]]), Birds.One, d))
    ensures DoProcessing(s, dt, gap, d).bird2Collided ==
      (s.bird2Collided || Hit(s.(pipes := [s.pipes[1]]), Birds.Two, d))
  {
    var spawned := Spawn(s, gap, d);
    SkippedPipeIsChecked(s, dt, gap, d);
    DoProcessingChecks(s, dt, gap, d);
    var r := DoProcessing(s, dt, gap, d);
    var c := spawned.(pipes := r.pipes);
    var one := s.(pipes := [s.pipes[1]]);
    assert r.pipes == EraseLoop(spawned.pipes, 0, dt, d);
    HitReadsOldest(c, one, Birds.One, d);
    HitReadsOldest(c, one, Birds.Two, d);
  }

  /** A hit depends on the birds and the oldest pipe only. */
  lemma HitReadsOldest(a: Session, b: Session, who: Birds.Player, d: Dims)
    requires |a.pipes| > 0 && |b.pipes| > 0
    requires a.pipes[0] == b.pipes[0] && a.bird1 == b.bird1 && a.bird2 == b.bird2
    ensures Hit(a, who, d) == Hit(b, who, d)
  {
  }
}

=== FILE: globals.dfy ===
/** Window constants, sprite sizes and the bounding-box overlap used by the
    collision checks. Coordinates are screen pixels with y growing downwards;
    `real` stands in exactly for the game's `float`. */
module Globals {

  /** Width of the game window: new pipes appear at this x. */
  const WindowWidth: real := 600.0

  /** Sizes of the sprites' global bounds: each is the size of a texture
      loaded from a file, multiplied by the scaling factor 1.5. The textures
      are not part of this model, so the sizes are parameters. Every size is
      assumed positive, as a texture's is; `Intersects` stands for the
      library's test only under that assumption. */
  datatype Dims = Dims(
    bird1Width: real, bird1Height: real,
    bird2Width: real, bird2Height: real,
    pipeUpWidth: real, pipeUpHeight: real,
    pipeDownWidth: real, pipeDownHeight: real)

  /** An axis-aligned rectangle, as a sprite's global bounds. */
  datatype Rect = Rect(left: real, top: real, width: real, height: real)

  /** Overlap of two rectangles with a non-empty intersection; for
      rectangles of positive size this is the assumed meaning of the graphics
      library's rectangle intersection test. */
  predicate Intersects(a: Rect, b: Rect)
  {
    && a.left < b.left + b.width
    && b.left < a.left + a.width
    && a.top < b.top + b.height
    && b.top < a.top + a.height
  }
}

=== FILE: pipe_erase.dfy ===
/** The per-frame pipe pass: walk the pipe list with an index, update the pipe
    at that index, and erase it if it has left the screen, then advance the
    index whether or not something was erased. After an erase the next pipe
    slides into the current slot and the index moves past it, so that pipe is
    neither moved nor checked in that frame. */
module PipeErase {
  import opened Globals
  import opened Pipes

  /** The pass from index `i` on, exactly as the loop runs it. */
  function EraseLoop(ps: seq<Pipe>, i: nat, dt: real, d: Dims): (r: seq<Pipe>)
    ensures |r| <= |ps|
    ensures i >= |ps| ==> r == ps
    ensures i <= |ps| ==> i <= |r| && r[..i] == ps[..i]
    decreases |ps| - i
  {
    if i >= |ps| then ps
    else
      var moved := Update(ps[i], dt);
      if Offscreen(moved, d) then
        EraseLoop(ps[..i] + ps[i + 1..], i + 1, dt, d)
      else
        EraseLoop(ps[i := moved], i + 1, dt, d)
  }

  /** What the pass does to one pipe. */
  datatype Fate = Kept | Erased | Skipped

  /** The fate of every pipe, computed in list order; `skip` says whether the
      previous pipe was erased. */
  function Fates(ps: seq<Pipe>, skip: bool, dt: real, d: Dims): (f: seq<Fate>)
    ensures |f| == |ps|
    decreases |ps|
  {
    if ps == [] then []
    else if skip then [Skipped] + Fates(ps[1..], false, dt, d)
    else
      var gone := Offscreen(Update(ps[0], dt), d);
      [if gone then Erased else Kept] + Fates(ps[1..], gone, dt, d)
  }

  /** The pointwise description of the fates: the first pipe is skipped
      exactly when `skip` says so, a later pipe exactly when the one before it
      was erased, and a visited pipe is erased exactly when it is off screen
      after its own update. */
  lemma {:induction false} FatesPointwise(ps: seq<Pipe>, skip: bool, dt: real, d: Dims)
    ensures var f := Fates(ps, skip, dt, d);
      && (|f| > 0 ==> (f[0] == Skipped <==> skip))
      // two indices rather than f[j] against f[j - 1], so the quantifier
      // cannot match on its own instances
      && (forall j, k :: 0 <= j && k == j + 1 && k < |f| ==> (f[k] == Skipped <==> f[j] == Erased))
      && (forall j :: 0 <= j < |f| && f[j] != Skipped ==>
            (f[j] == Erased <==> Offscreen(Update(ps[j], dt), d)))
    decreases |ps|
  {
    if ps != [] {
      var f := Fates(ps, skip, dt, d);
      var gone := !skip && Offscreen(Update(ps[0], dt), d);
      var g := Fates(ps[1..], gone, dt, d);
      FatesPointwise(ps[1..], gone, dt, d);
      assert f == [f[0]] + g;
      assert f[0] == Erased <==> gone;
      forall j, k | 0 <= j && k == j + 1 && k < |f|
        ensures f[k] == Skipped <==> f[j] == Erased
      {
        if j > 0 {
          assert f[k] == g[j] && f[j] == g[j - 1];
        }
      }
      forall j | 0 < j < |f|
        ensures f[j] == g[j - 1] && ps[j] == ps[1..][j - 1]
      {
      }
    }
  }

  /** The pipes that remain, in their original order: a kept pipe as updated,
      a skipped pipe as it was, an erased pipe not at all. */
  function Apply(ps: seq<Pipe>, f: seq<Fate>, dt: real): (r: seq<Pipe>)
    requires |f| == |ps|
    decreases |ps|
  {
    if ps == [] then []
    else
      var head := match f[0]
        case Kept => [Update(ps[0], dt)]
        case Skipped => [ps[0]]
        case Erased => [];
      head + Apply(ps[1..], f[1..], dt)
  }

  /** The loop, started at any index, leaves the pipes before the index alone
      and treats the rest as their fates say. */
  lemma {:induction false} EraseLoopFromPrefix(pre: seq<Pipe>, rest: seq<Pipe>, dt: real, d: Dims)
    ensures EraseLoop(pre + rest, |pre|, dt, d) == pre + Apply(rest, Fates(rest, false, dt, d), dt)
    decreases |rest|, 1
  {
    if rest == [] {
      assert pre + rest == pre;
    } else if Offscreen(Update(rest[0], dt), d) {
      ErasedStep(pre, rest, dt, d);
    } else {
      KeptStep(pre, rest, dt, d);
    }
  }

  /** The first remaining pipe goes off screen: it is dropped and the next
      one is passed over. */
  lemma {:induction false} ErasedStep(pre: seq<Pipe>, rest: seq<Pipe>, dt: real, d: Dims)
    requires rest != [] && Offscreen(Update(rest[0], dt), d)
    ensures EraseLoop(pre + rest, |pre|, dt, d) == pre + Apply(rest, Fates(rest, false, dt, d), dt)
    decreases |rest|, 0
  {
    var r := rest[1..];
    EraseUnfold(pre, rest, dt, d);
    assert Fates(rest, false, dt, d) == [Erased] + Fates(r, true, dt, d);
    assert Apply(rest, Fates(rest, false, dt, d), dt) == Apply(r, Fates(r, true, dt, d), dt);
    if r == [] {
      assert pre + r == pre;
    } else {
      SkippedStep(pre, r, dt, d);
    }
  }

  /** Right after an erase, the pipe now at the index is passed over. */
  lemma {:induction false} SkippedStep(pre: seq<Pipe>, r: seq<Pipe>, dt: real, d: Dims)
    requires r != []
    ensures EraseLoop(pre + r, |pre| + 1, dt, d) == pre + Apply(r, Fates(r, true, dt, d), dt)
    decreases |r|, 0
  {
    var y, r' := r[0], r[1..];
    assert pre + r == (pre + [y]) + r';
    EraseLoopFromPrefix(pre + [y], r', dt, d);
    var f' := Fates(r', false, dt, d);
    assert Fates(r, true, dt, d) == [Skipped] + f';
    assert Apply(r, [Skipped] + f', dt) == [y] + Apply(r', f', dt);
    assert (pre + [y]) + Apply(r', f', dt) == pre + ([y] + Apply(r', f', dt));
  }

  lemma EraseUnfold(pre: seq<Pipe>, rest: seq<Pipe>, dt: real, d: Dims)
    requires rest != [] && Offscreen(Update(rest[0], dt), d)
    ensures EraseLoop(pre + rest, |pre|, dt, d) == EraseLoop(pre + rest[1..], |pre| + 1, dt, d)
  {
  }

  /** The first remaining pipe stays on screen: it is kept, updated. */
  lemma {:induction false} KeptStep(pre: seq<Pipe>, rest: seq<Pipe>, dt: real, d: Dims)
    requires rest != [] && !Offscreen(Update(rest[0], dt), d)
    ensures EraseLoop(pre + rest, |pre|, dt, d) == pre + Apply(rest, Fates(rest, false, dt, d), dt)
    decreases |rest|, 0
  {
    var ps := pre + rest;
    var i := |pre|;
    var r := rest[1..];
    var moved := Update(rest[0], dt);
    assert ps[i] == rest[0];
    assert ps[i := moved] == (pre + [moved]) + r;
    assert EraseLoop(ps, i, dt, d) == EraseLoop((pre + [moved]) + r, i + 1, dt, d);
    EraseLoopFromPrefix(pre + [moved], r, dt, d);
    var f := Fates(r, false, dt, d);
    assert Fates(rest, false, dt, d) == [Kept] + f;
    assert Apply(rest, [Kept] + f, dt) == [moved] + Apply(r, f, dt);
  }

  /** The whole pass equals the fate-wise description. */
  lemma EraseLoopMatchesFates(ps: seq<Pipe>, dt: real, d: Dims)
    ensures EraseLoop(ps, 0, dt, d) == Apply(ps, Fates(ps, false, dt, d), dt)
  {
    EraseLoopFromPrefix([], ps, dt, d);
    assert [] + ps == ps;
  }

  /** The pipe that slides into an erased slot stays in the list unmoved, even
      when it is itself off screen. */
  lemma SkipAfterErase(ps: seq<Pipe>, i: nat, dt: real, d: Dims)
    requires i + 1 < |ps|
    requires Offscreen(Update(ps[i], dt), d)
    ensures i < |EraseLoop(ps, i, dt, d)|
    ensures EraseLoop(ps, i, dt, d)[i] == ps[i + 1]
  {
  }

  /** When no pipe goes off screen in this frame, every pipe is updated once
      and nothing is erased or skipped. */
  lemma {:induction false} NoneOffscreenUpdatesAll(ps: seq<Pipe>, dt: real, d: Dims)
    requires forall j :: 0 <= j < |ps| ==> !Offscreen(Update(ps[j], dt), d)
    ensures |EraseLoop(ps, 0, dt, d)| == |ps|
    ensures forall j :: 0 <= j < |ps| ==> EraseLoop(ps, 0, dt, d)[j] == Update(ps[j], dt)
  {
    EraseLoopMatchesFates(ps, dt, d);
    AllKept(ps, dt, d);
  }

  lemma {:induction false} AllKept(ps: seq<Pipe>, dt: real, d: Dims)
    requires forall j :: 0 <= j < |ps| ==> !Offscreen(Update(ps[j], dt), d)
    ensures |Apply(ps, Fates(ps, false, dt, d), dt)| == |ps|
    ensures forall j :: 0 <= j < |ps| ==> Apply(ps, Fates(ps, false, dt, d), dt)[j] == Update(ps[j], dt)
    decreases |ps|
  {
    if ps != [] {
      AllKept(ps[1..], dt, d);
      assert Fates(ps, false, dt, d) == [Kept] + Fates(ps[1..], false, dt, d);
    }
  }

  /** Every pipe in the result is an input pipe, moved or not; so placed
      pipes stay placed. */
  lemma {:induction false} ApplyKeepsPlaced(ps: seq<Pipe>, f: seq<Fate>, dt: real, d: Dims)
    requires |f| == |ps|
    requires forall j :: 0 <= j < |ps| ==> Placed(ps[j], d)
    ensures forall k :: 0 <= k < |Apply(ps, f, dt)| ==> Placed(Apply(ps, f, dt)[k], d)
    decreases |ps|
  {
    if ps != [] {
      ApplyKeepsPlaced(ps[1..], f[1..], dt, d);
      UpdateStep(ps[0], d, dt);
    }
  }

  lemma EraseLoopKeepsPlaced(ps: seq<Pipe>, dt: real, d: Dims)
    requires forall j :: 0 <= j < |ps| ==> Placed(ps[j], d)
    ensures forall k :: 0 <= k < |EraseLoop(ps, 0, dt, d)| ==> Placed(EraseLoop(ps, 0, dt, d)[k], d)
  {
    EraseLoopMatchesFates(ps, dt, d);
    ApplyKeepsPlaced(ps, Fates(ps, false, dt, d), dt, d);
  }
}

=== FILE: pipes.dfy ===
/** A pipe obstacle: an upper ("down"-facing) segment and a lower ("up"-facing)
    segment that share an x coordinate and move left together. Speed and gap
    are constants shared by all pipes. */
module Pipes {
  import opened Globals

  /** Vertical distance of the gap between the two segments. */
  const PipeDistance: real := 170.0
  /** Leftward speed in pixels per second. */
  const MoveSpeed: real := 400.0
  /** Range of the random gap position drawn for each new pipe (inclusive). */
  const GapLow: int := 250
  const GapHigh: int := 550

  /** Top-left corner of a segment's sprite. */
  datatype Segment = Segment(left: real, top: real)

  datatype Pipe = Pipe(up: Segment, down: Segment)

  /** Both segments at the same x, the lower segment's top exactly the gap
      plus the lower segment's height below the upper segment's top. */
  predicate WellFormed(p: Pipe, d: Dims)
  {
    && p.up.left == p.down.left
    && p.up.top - p.down.top == PipeDistance + d.pipeUpHeight
  }

  /** A well-formed pipe whose lower segment starts inside the random range. */
  predicate Placed(p: Pipe, d: Dims)
  {
    WellFormed(p, d) && GapLow as real <= p.up.top <= GapHigh as real
  }

  /** A new pipe at the right edge of the window for the drawn value `gap`. */
  function New(gap: int, d: Dims): (p: Pipe)
    ensures p.up.left == WindowWidth && p.down.left == WindowWidth
    ensures p.up.top == gap as real
    ensures p.up.top - p.down.top == PipeDistance + d.pipeUpHeight
    ensures WellFormed(p, d)
    ensures GapLow <= gap <= GapHigh ==> Placed(p, d)
  {
    Pipe(Segment(WindowWidth, gap as real),
         Segment(WindowWidth, gap as real - PipeDistance - d.pipeUpHeight))
  }

  /** One frame of movement. */
  function Update(p: Pipe, dt: real): (r: Pipe)
    ensures r.up.left == p.up.left - MoveSpeed * dt
    ensures r.down.left == p.down.left - MoveSpeed * dt
    ensures r.up.top == p.up.top && r.down.top == p.down.top
  {
    Pipe(Segment(p.up.left - MoveSpeed * dt, p.up.top),
         Segment(p.down.left - MoveSpeed * dt, p.down.top))
  }

  /** `n` frames of movement with the same dt. */
  function UpdateN(p: Pipe, dt: real, n: nat): Pipe
    decreases n
  {
    if n == 0 then p else UpdateN(Update(p, dt), dt, n - 1)
  }

  /** Right edge of the upper segment's bounds; used for removal and scoring.
      For a well-formed pipe it is also the lower segment's x plus the upper
      segment's width. */
  function RightBound(p: Pipe, d: Dims): (r: real)
    ensures r == DownRect(p, d).left + DownRect(p, d).width
    ensures WellFormed(p, d) ==> r == p.up.left + d.pipeDownWidth
  {
    p.down.left + d.pipeDownWidth
  }

  /** Global bounds of the two segments. */
  function UpRect(p: Pipe, d: Dims): Rect
  {
    Rect(p.up.left, p.up.top, d.pipeUpWidth, d.pipeUpHeight)
  }

  function DownRect(p: Pipe, d: Dims): Rect
  {
    Rect(p.down.left, p.down.top, d.pipeDownWidth, d.pipeDownHeight)
  }

  /** A pipe leaves the game once its right edge has passed x = 0. */
  predicate Offscreen(p: Pipe, d: Dims)
  {
    RightBound(p, d) < 0.0
  }

  /** Each update moves the right edge left by exactly speed * dt, and keeps
      a well-formed (placed) pipe well-formed (placed). */
  lemma UpdateStep(p: Pipe, d: Dims, dt: real)
    ensures RightBound(Update(p, dt), d) == RightBound(p, d) - MoveSpeed * dt
    ensures dt >= 0.0 ==> RightBound(Update(p, dt), d) <= RightBound(p, d)
    ensures WellFormed(p, d) ==> WellFormed(Update(p, dt), d)
    ensures Placed(p, d) ==> Placed(Update(p, dt), d)
  {
  }

  /** After `n` updates both segments have moved left by n * speed * dt,
      neither has moved vertically, and a well-formed pipe is still
      well-formed: the segments share x and keep their vertical offset. */
  lemma {:induction false} UpdateNShift(p: Pipe, d: Dims, dt: real, n: nat)
    ensures UpdateN(p, dt, n).up.left == p.up.left - (n as real) * MoveSpeed * dt
    ensures UpdateN(p, dt, n).down.left == p.down.left - (n as real) * MoveSpeed * dt
    ensures UpdateN(p, dt, n).up.top == p.up.top
    ensures UpdateN(p, dt, n).down.top == p.down.top
    ensures WellFormed(p, d) ==> WellFormed(UpdateN(p, dt, n), d)
    decreases n
  {
    if n > 0 {
      UpdateNShift(Update(p, dt), d, dt, n - 1);
      assert (n as real) * MoveSpeed * dt == ((n - 1) as real) * MoveSpeed * dt + MoveSpeed * dt;
    }
  }

  /** For dt >= 0 the right edge never moves right, however many updates. */
  lemma {:induction false} RightBoundNonIncreasing(p: Pipe, d: Dims, dt: real, n: nat)
    requires dt >= 0.0
    ensures RightBound(UpdateN(p, dt, n), d) <= RightBound(p, d)
    decreases n
  {
    if n > 0 {
      RightBoundNonIncreasing(Update(p, dt), d, dt, n - 1);
    }
  }
}
